=== FILE: README.md ===
# nextr `Co`: a middleware chain, modelled in Dafny

`Co` composes step functions into a chain of `Runner` nodes. Starting the
chain runs the first node. Each node's function receives a directives
object and decides what runs next:

- `next` runs the following node;
- `back` runs the preceding node;
- `resume` runs the first node again;
- `abort` stops the chain.

Every node invoked in one start gets the same argument list: the call's
arguments followed by the context (by `concat`, so an array context
contributes its elements instead). A function's declared parameter count
decides which part of that list it sees. Exceptions thrown by a step are
tagged with the step's name, or with a 10-character prefix of its source
text when it has no name, unless the message already carries the
`Co Exception` marker. So a message is tagged only once.

The model is functional:

- The linked nodes are a `seq<Runner>`. The stored `prev`/`next` links are
  set the way `setPrevSibling`/`setNextSibling` set them. `Linked` / `Wf`
  prove that they are the index neighbours.
- A step function is a record: name, source text, declared length, and an
  abstract body (`Middleware.Action`). The body returns, calls exactly one
  directive, or throws a message.
- Running a node gives a trace of the invocations and callbacks that happen,
  and ends as `Done`, `Threw` or `OutOfFuel`. Fuel bounds the recursion,
  which has no bound in the source.

Modules:

- `Js`: `slice` semantics and the substring test.
- `Middleware`: step functions.
- `CoError`: `isCoError`, `buildCoError` and the handler.
- `Steps`: `Runner`, argument selection, `run`, `upstream` and the directives.
- `Traces`: properties of whole runs.
- `Chain`: `Co`, with `useFn`, `useOne`, `use` and `start`.

Abstractions and parameters:

- `isFunction` and the `Fn` type come from `./utils` and `./types`, which are
  not part of this model. A value's being a function is a constructor tag:
  `UseArg.FnArg`, `Context.Producer`, and the `onError`/`onSuccess`/`onFinish`
  flags of a `Runner`.
- Object identity matters only in that a chain must not be flattened into
  itself. It is represented by `Co.id`.
- `Co.steps` and the other fields are immutable values. So the nested
  chain given to `use` keeps its own node list unchanged, and the new nodes
  are fresh values.
- `Start` returns `Started(ctx, outcome)`. When `outcome` is `Threw`, the
  source's `start` raises that message instead of returning the context.

Behaviour that is narrower than one might expect, modelled as the code has it:

- `resume` at the first node does nothing. It does not run that node again, because `upstream` is reached only through an existing `prevSibling`.
- `back` at the first node does nothing.
- A middle node whose function declares 0 parameters gets the whole argument list, because `slice(-0)` is `slice(0)`.
- A one-parameter last node run with an empty `options` list gets no arguments at all, because that is what `slice(-2, -1)` of a one-element list gives. `start` passes an empty list when it is called without arguments on a chain whose context is an empty array, since `[].concat([])` is `[]`. Otherwise it passes at least one value.
- `Co` never gives its nodes `onError`, `onSuccess` or `onFinish`. So under `Co`, `abort` and `next` at the last node just end the run.

## Model

| member | source | states |
|---|---|---|
| Js.IncludesIff | src/Co.ts:4-6 | the marker test used by `isCoError` holds exactly when some window of the message equals the marker |
| Js.Concat | src/Co.ts:182 | `concat` keeps the list as a prefix and then adds an array's elements in order, or any other value as one element |
| Js.RelIndex | src/Co.ts:76 | `slice` keeps a position inside the list as is and reads a negative one from the end. A position below minus the length becomes 0, and one beyond the length becomes the length |
| Js.SliceFromEnd | src/Co.ts:76 | `slice(-n)` is the last `n` elements when `1 <= n <= length`, and the whole list when `n` is 0 or at least the length |
| CoError.FunctionName | src/Co.ts:10 | the tag names `fn.name` when it is non-empty, and otherwise a prefix of the source text of length min(10, source length) |
| CoError.BuildCoError | src/Co.ts:8-14 | the rewritten message carries the marker, starts with `[Co Exception <name>]: ` and ends with the original message |
| CoError.Rethrow | src/Co.ts:82-90 | the handler's message always carries the marker and ends with the original; it is unchanged exactly when the original already carried the marker |
| CoError.RethrowIdempotent | src/Co.ts:84-89 | a message passed through one handler passes through any further handler unchanged, so there is no double tagging |
| Steps.NewRunner | src/Co.ts:26-47 | a node made by `Co` has no neighbours and no callbacks |
| Steps.SetPrevSibling | src/Co.ts:93-95 | only the backward link changes, and it names the given node |
| Steps.SetNextSibling | src/Co.ts:97-99 | only the forward link changes, and it names the given node |
| Steps.WithDirectives | src/Co.ts:51-71 | the options come first, in order, and the directives object comes last |
| Steps.Arguments | src/Co.ts:73-80 | a middle node gets the last `length` entries, ending with the directives (the whole list for 0 or a too-large length); a one-parameter tail gets just the last entry of `options`, which is the context when the context is not an array (and nothing when `options` is empty); any other tail gets everything |
| Steps.ReceivesDirectives | src/Co.ts:73-80 | a node's function gets the directives object among its arguments exactly when the node is not a one-parameter last node, whatever the options |
| Steps.RealisableIff | src/Co.ts:73-80 | `Realisable` (no one-parameter last node calls a directive) holds exactly when every node that calls a directive has received the directives object |
| Steps.UpstreamRunsHead | src/Co.ts:101-104 | `upstream` from any node runs the first node |
| Steps.DispatchTarget | src/Co.ts:52-70 | `back` runs i-1, `resume` runs node 0 and `next` runs i+1. `back`/`resume` at the first node run nothing. `next` at the last node runs only its success/finish callbacks. `abort` runs only its error/finish callbacks |
| Steps.AbortStops | src/Co.ts:52-55 | after `abort` no further node is invoked: the trace is the aborting node and its callbacks |
| Traces.RunSameOptions | src/Co.ts:49-70 | every node invoked in a run is run with the one `options` list the run started with (its function sees `Arguments` of that list), and only existing nodes are invoked or call callbacks |
| Traces.UpstreamSameOptions | src/Co.ts:101-104 | the same, for runs entered through `upstream` |
| Traces.DispatchSameOptions | src/Co.ts:56-70 | the same, for runs entered through a directive |
| Traces.RunWellTagged | src/Co.ts:82-90 | a run that throws reports exactly the tagged message of the last node invoked, a node whose body threw. The handlers of the nodes that invoked it do not tag it again |
| Traces.UpstreamWellTagged | src/Co.ts:101-104 | the same, for runs entered through `upstream` |
| Traces.DispatchWellTagged | src/Co.ts:56-70 | the same, for runs entered through a directive |
| Traces.SweepOrder | src/Co.ts:62-66 | the k-th invocation of a forward sweep from node i is node i+k, with that node's arguments |
| Traces.ForwardRunsInOrder | src/Co.ts:62-70 | when every node calls `next`, except that the last may just return, nodes i, i+1, ..., last run in that order. If the last node called `next`, its success/finish callbacks follow; if it returned, nothing follows |
| Traces.RunFuelMonotone | src/Co.ts:49-91 | a run that finished within some fuel finishes the same way with more fuel, so fuel only truncates |
| Traces.UpstreamFuelMonotone | src/Co.ts:101-104 | the same, for `upstream` |
| Traces.DispatchFuelMonotone | src/Co.ts:52-70 | the same, for the directives |
| Traces.BackNextCycleNeverFinishes | src/Co.ts:56-66 | neighbours i and i+1, the first calling `next` and the second calling `back`, never finish a run started at either of them, with any amount of fuel |
| Chain.NewCo | src/Co.ts:112-116 | a new chain has no nodes and keeps the given context, or `{}` when none is given |
| Chain.UseFn | src/Co.ts:118-130 | appends one fresh node for `fn` and keeps the chain well formed (links are the index neighbours). Earlier nodes other than the old tail are untouched. The head is set on the first append only |
| Chain.WfDeterminedByFns | src/Co.ts:118-130 | a chain built by `Co` is determined by its functions in order |
| Chain.RegisteredAppend | src/Co.ts:172-175 | registering two argument lists in turn registers their functions in turn |
| Chain.UseOne | src/Co.ts:155-165 | a function adds one node. A nested chain adds its functions in order, from head to tail, as fresh nodes (length grows by the nested length). Anything else adds nothing. Identity, context and head are kept |
| Chain.Use | src/Co.ts:172-175 | the chain's functions become the old ones followed by each argument's contribution in argument order. The same chain (identity and context) is returned, and a set head never changes |
| Chain.Start | src/Co.ts:177-184 | the resolved context is always returned. With no nodes nothing runs. Otherwise node 0 runs with the call's arguments followed by the context, or by the context's elements when it is an array |
| Chain.StartSameOptions | src/Co.ts:182 | every node invoked during one start is run with `args.concat(ctx)`: `args ++ [ctx]`, or `args ++ ctx` when the context is an array. The first invocation is of node 0 |
| Chain.TailArguments | src/Co.ts:77-79 | during a start, a one-parameter last node receives the last entry of `args.concat(ctx)`, and nothing when that list is empty. So it gets the context when that is not an array, the array's last element for a non-empty array, the last call argument for an empty array, and nothing for an empty array with no call arguments |
| Chain.StartWellTagged | src/Co.ts:82-90 | a start that throws raises the once-tagged message of the node that threw, and that message carries the marker |
| Chain.StartRunsInOrder | src/Co.ts:177-184 | a chain whose steps all call `next`, except that the last may just return (as a one-parameter last node, which never receives the directives object, must), runs them all first to last, and nothing else happens |
| Chain.FlattenedBehavesAlike | src/Co.ts:156-161 | a chain holding another's functions in the same order, with the same context, starts exactly like it |

## Left out

- `./utils` (`isFunction`) and `./types` (`Fn`) are not part of this model. Being a function is a constructor tag.
- JavaScript reflection (`fn.length`, `fn.name`, `String(fn)`) is replaced by fields of `Middleware.Fn`. The receiver bound by `fn.apply(this, …)` plays no role.
- Step bodies: each step always does the same one thing. It returns, calls one directive synchronously, or throws. A body that calls several directives, or calls one later (asynchronously), is not modelled. Nor is a body that throws after calling a directive. Nor is a body that catches what its own directive call threw (`try { next() } catch {}`): in the source its `run` then returns normally, while the model's `Steps.After` always passes a `Threw` outward.
- Callbacks (`onError`, `onSuccess`, `onFinish`) are modelled as flags, and calling one is a trace event. A callback that throws is not modelled. `Co` never sets them, so they matter only for nodes built directly.
- The `ancestor` field of `Runner` is written by the constructor and by `useFn` but never read, so it is not modelled.
- Thrown values that are not `Error` objects (no `message`) are not modelled: every throw carries a string message.
- A context producer that throws, and the identity and mutation of the context object, are not modelled. A producer is represented by the value it returns.
- Steps.Run: unbounded `back`/`resume` recursion is cut off by a fuel bound and reported as `OutOfFuel`. The source recurses until the stack overflows. `Traces.RunFuelMonotone` shows that fuel only truncates.
- Chain.Use: flattening a chain into itself never terminates in the source when the chain already has a node at the moment that argument is reached (`c.use(c)` on a non-empty chain, or `c.use(f, c)` on an empty one), because the walk follows the nodes it is appending. When the chain has no nodes at that moment, `ancestor` is null, the walk does nothing and `use` returns the chain unchanged. The model requires every nested chain's identity to differ from the receiver's, so it also excludes that harmless empty self-flatten.
- CoError.FunctionName: the first 10 characters of the source text are counted in Unicode scalar values (Dafny `char`). `String(fn).slice(0, 10)` counts UTF-16 code units. The two agree on source text without characters above U+FFFF. A character above U+FFFF counts as one here and as two in the source.
- Chain.Start: `concat` spreads only arrays (`Value.Arr`). An object made spreadable through `Symbol.isConcatSpreadable` is appended as one value. An array-like that is not an array is also appended as one value, as the source does.
- Chain.StartSameOptions: the same restriction on spreading as `Chain.Start`.
- Steps.Run: a `Call` action is accepted at a one-parameter last node too. Such a node's function never receives the directives object, so the source cannot produce that node. `Steps.Realisable` names the node lists the source can produce, and `Steps.RealisableIff` ties it to the arguments each node receives.
- The marker test is a plain substring test. The source's regular expression `/Co Exception/` has no special characters.

=== FILE: chain.dfy ===
/** `Co`: building a chain of nodes and starting it.

    A chain's nodes are a `seq<Runner>`; `head` (`ancestor`) and `current`
    are positions in it. `id` stands for the object's identity, which the
    source relies on only in that a chain must not be flattened into
    itself. */
module Chain {
  import opened Js
  import opened Middleware
  import opened Steps
  import CoError
  import Traces

  /** The stored context: a value, or a function called on each start. */
  datatype Context = Plain(value: Value) | Producer(produces: Value)

  datatype Co = Co(
    id: nat,
    steps: seq<Runner>,
    head: Option<nat>,
    current: Option<nat>,
    ctx: Context)

  /** An argument of `use`: a step function, another chain, or anything
      else (ignored). */
  datatype UseArg = FnArg(fn: Fn) | ChainArg(chain: Co) | OtherArg(value: Value)

  /** What every chain built by `NewCo` and `use` looks like: nodes linked
      to their index neighbours, no callbacks (`Co` never passes any),
      `head` the first node and `current` the last. */
  predicate Wf(c: Co) {
    && Linked(c.steps)
    && (forall i :: 0 <= i < |c.steps| ==>
          !c.steps[i].onError && !c.steps[i].onSuccess && !c.steps[i].onFinish)
    && c.head == (if |c.steps| == 0 then None else Some(0))
    && c.current == (if |c.steps| == 0 then None else Some(|c.steps| - 1))
  }

  /** The functions of a node list, in order. */
  function Fns(steps: seq<Runner>): seq<Fn> {
    seq(|steps|, i requires 0 <= i < |steps| => steps[i].fn)
  }

  /** `new Co(options)`: no nodes; the context is the one given, `{}`
      when none is. */
  function NewCo(id: nat, ctx: Option<Context>): (c: Co)
    ensures Wf(c) && c.steps == [] && c.id == id
    ensures ctx.Some? ==> c.ctx == ctx.value
    ensures ctx.None? ==> c.ctx.Plain? && c.ctx.value.Obj?
  {
    Co(id, [], None, None, match ctx case Some(x) => x case None => Plain(Obj(0)))
  }

  /** `useFn`: a fresh node for `fn` goes after the current last node and
      becomes the last; the first node is fixed by the first append. */
  function UseFn(c: Co, fn: Fn): (r: Co)
    requires Wf(c)
    ensures Wf(r)
    ensures Fns(r.steps) == Fns(c.steps) + [fn]
    ensures |c.steps| > 0 ==> r.steps[..|c.steps| - 1] == c.steps[..|c.steps| - 1]
    ensures c.head.Some? ==> r.head == c.head
    ensures c.head.None? ==> r.head == Some(|c.steps|)
    ensures r.id == c.id && r.ctx == c.ctx
  {
    var n := |c.steps|;
    var runner := NewRunner(fn);
    var head := if c.head.None? then Some(n) else c.head;
    match c.current
    case None => Co(c.id, [runner], head, Some(n), c.ctx)
    case Some(k) =>
      var linked := c.steps[k := SetNextSibling(c.steps[k], n)];
      var r := Co(c.id, linked + [SetPrevSibling(runner, k)], head, Some(n), c.ctx);
      assert Fns(r.steps) == Fns(c.steps) + [fn];
      r
  }

  /** Two well-formed chains with the same functions in the same order
      have the same nodes: only the functions are carried by a chain's
      structure. */
  lemma WfDeterminedByFns(a: Co, b: Co)
    requires Wf(a) && Wf(b) && Fns(a.steps) == Fns(b.steps)
    ensures a.steps == b.steps && a.head == b.head && a.current == b.current
  {
    assert |a.steps| == |Fns(a.steps)|;
    forall i | 0 <= i < |a.steps|
      ensures a.steps[i] == b.steps[i]
    {
      assert Fns(a.steps)[i] == a.steps[i].fn;
    }
  }

  /** The functions `use` registers for its arguments, in order. */
  function Registered(args: seq<UseArg>): seq<Fn> {
    if |args| == 0 then []
    else Registered(args[..|args| - 1]) + Contributed(args[|args| - 1])
  }

  /** The functions one argument of `use` contributes. */
  function Contributed(arg: UseArg): seq<Fn> {
    match arg
    case FnArg(fn) => [fn]
    case ChainArg(d) => Fns(d.steps)
    case OtherArg(_) => []
  }

  /** Registering two argument lists one after the other registers their
      functions one after the other. */
  lemma {:induction false} RegisteredAppend(a: seq<UseArg>, b: seq<UseArg>)
    ensures Registered(a + b) == Registered(a) + Registered(b)
    decreases |b|
  {
    if |b| > 0 {
      var b' := b[..|b| - 1];
      assert (a + b)[..|a + b| - 1] == a + b';
      assert (a + b)[|a + b| - 1] == b[|b| - 1];
      RegisteredAppend(a, b');
    } else {
      assert a + b == a;
    }
  }

  /** Arguments that are nested chains are well formed and are not the
      chain being extended. */
  predicate Flattenable(c: Co, args: seq<UseArg>) {
    forall k :: 0 <= k < |args| ==>
      args[k].ChainArg? ==> Wf(args[k].chain) && args[k].chain.id != c.id
  }

  /** `useOne`: a function is appended; a nested chain is walked from its
      first node along `next` links and each of its functions appended as
      a fresh node; anything else is skipped. */
  method UseOne(c: Co, arg: UseArg) returns (r: Co)
    requires Wf(c) && Flattenable(c, [arg])
    ensures Wf(r)
    ensures Fns(r.steps) == Fns(c.steps) + Contributed(arg)
    ensures |r.steps| == |c.steps| + |Contributed(arg)|
    ensures c.head.Some? ==> r.head == c.head
    ensures r.id == c.id && r.ctx == c.ctx
  {
    match arg
    case ChainArg(d) =>
      assert [arg][0] == arg;
      r := c;
      var runner := d.head;
      ghost var k := 0;
      while runner.Some?
        invariant Wf(r) && r.id == c.id && r.ctx == c.ctx
        invariant c.head.Some? ==> r.head == c.head
        invariant 0 <= k <= |d.steps|
        invariant runner == if k < |d.steps| then Some(k) else None
        invariant Fns(r.steps) == Fns(c.steps) + Fns(d.steps)[..k]
        decreases |d.steps| - k
      {
        assert Fns(d.steps)[..k + 1] == Fns(d.steps)[..k] + [d.steps[k].fn];
        r := UseFn(r, d.steps[runner.value].fn);
        runner := d.steps[runner.value].next;
        k := k + 1;
      }
      assert Fns(d.steps)[..k] == Fns(d.steps);
    case FnArg(fn) =>
      r := UseFn(c, fn);
    case OtherArg(_) =>
      r := c;
  }

  /** `use(...args)`: each argument in turn, as `useOne` treats it; the
      same chain (same identity and context) comes back. */
  method Use(c: Co, args: seq<UseArg>) returns (r: Co)
    requires Wf(c) && Flattenable(c, args)
    ensures Wf(r)
    ensures Fns(r.steps) == Fns(c.steps) + Registered(args)
    ensures |r.steps| == |c.steps| + |Registered(args)|
    ensures c.head.Some? ==> r.head == c.head
    ensures r.id == c.id && r.ctx == c.ctx
  {
    r := c;
    var k := 0;
    while k < |args|
      invariant 0 <= k <= |args|
      invariant Wf(r) && r.id == c.id && r.ctx == c.ctx
      invariant c.head.Some? ==> r.head == c.head
      invariant Fns(r.steps) == Fns(c.steps) + Registered(args[..k])
    {
      assert args[..k + 1][..k] == args[..k];
      r := UseOne(r, args[k]);
      k := k + 1;
    }
    assert args[..k] == args;
  }

  /** The context value one start works with: a producer is called, a
      plain value used as is. */
  function Resolve(ctx: Context): Value {
    match ctx
    case Producer(v) => v
    case Plain(v) => v
  }

  /** What `start` leaves behind: the resolved context it returns, and the
      outcome of running the first node. When the outcome is `Threw`, the
      call raises that message instead of returning. */
  datatype Started = Started(ctx: Value, outcome: Outcome)

  /** `start(...args)`: the first node, if any, runs with the call's
      arguments followed by the resolved context (by `concat`, so an array
      context contributes its elements); the context is returned in every
      case. */
  function Start(c: Co, args: seq<Value>, fuel: nat): (r: Started)
    requires Wf(c)
    ensures r.ctx == Resolve(c.ctx)
    ensures |c.steps| == 0 ==> r.outcome == Done([])
    ensures |c.steps| > 0 && !r.ctx.Arr? ==> r.outcome == Run(c.steps, 0, args + [r.ctx], fuel)
    ensures |c.steps| > 0 && r.ctx.Arr? ==> r.outcome == Run(c.steps, 0, args + r.ctx.elems, fuel)
  {
    var ctx := Resolve(c.ctx);
    match c.head
    case Some(h) => Started(ctx, Run(c.steps, h, Concat(args, ctx), fuel))
    case None => Started(ctx, Done([]))
  }

  /** Every node invoked during one start gets its arguments from the
      same list: the call's arguments followed by the context, or by the
      context's elements when it is an array. */
  lemma StartSameOptions(c: Co, args: seq<Value>, fuel: nat)
    requires Wf(c)
    ensures Traces.SameOptions(c.steps, Concat(args, Resolve(c.ctx)), Start(c, args, fuel).outcome.trace)
    ensures |c.steps| > 0 && fuel > 0 ==>
      Start(c, args, fuel).outcome.trace[0] == Ran(0, Concat(args, Resolve(c.ctx)))
    ensures !Resolve(c.ctx).Arr? ==> Concat(args, Resolve(c.ctx)) == args + [Resolve(c.ctx)]
    ensures Resolve(c.ctx).Arr? ==> Concat(args, Resolve(c.ctx)) == args + Resolve(c.ctx).elems
  {
    var options := Concat(args, Resolve(c.ctx));
    assert options == options[..|args|] + options[|args|..];
    if |c.steps| > 0 {
      Traces.RunSameOptions(c.steps, 0, options, fuel);
    }
  }

  /** What a one-parameter last node receives during a start: the last
      entry of `args.concat(ctx)`. That is the context itself when it is not
      an array, and nothing at all for an empty array context and no call
      arguments. */
  lemma TailArguments(c: Co, args: seq<Value>)
    requires Wf(c) && |c.steps| > 0 && c.steps[|c.steps| - 1].fn.length == 1
    ensures !Resolve(c.ctx).Arr? ==>
      ArgumentsAt(c.steps, |c.steps| - 1, Concat(args, Resolve(c.ctx))) == [Val(Resolve(c.ctx))]
    ensures Resolve(c.ctx).Arr? && |Resolve(c.ctx).elems| > 0 ==>
      ArgumentsAt(c.steps, |c.steps| - 1, Concat(args, Resolve(c.ctx)))
        == [Val(Resolve(c.ctx).elems[|Resolve(c.ctx).elems| - 1])]
    ensures args == [] && Resolve(c.ctx) == Arr([]) ==>
      ArgumentsAt(c.steps, |c.steps| - 1, Concat(args, Resolve(c.ctx))) == []
    ensures Resolve(c.ctx) == Arr([]) && |args| > 0 ==>
      ArgumentsAt(c.steps, |c.steps| - 1, Concat(args, Resolve(c.ctx))) == [Val(args[|args| - 1])]
    // in every case: the last entry of `args.concat(ctx)`, or nothing when it is empty
    ensures var o := Concat(args, Resolve(c.ctx));
      ArgumentsAt(c.steps, |c.steps| - 1, o) == if |o| > 0 then [Val(o[|o| - 1])] else []
  {
  }

  /** A start that throws reports the tagged message of the node that
      threw, tagged once; it carries the marker. */
  lemma StartWellTagged(c: Co, args: seq<Value>, fuel: nat)
    requires Wf(c)
    ensures Traces.WellTagged(c.steps, Start(c, args, fuel).outcome)
    ensures Start(c, args, fuel).outcome.Threw? ==> CoError.IsCoError(Start(c, args, fuel).outcome.message)
  {
    if |c.steps| > 0 {
      Traces.RunWellTagged(c.steps, 0, Concat(args, Resolve(c.ctx)), fuel);
    }
  }

  /** A chain whose every step calls `next`, except that the last may just
      return (as a one-parameter last node must), runs them all,
      first to last, and nothing else happens (its nodes have no
      callbacks). */
  lemma StartRunsInOrder(c: Co, args: seq<Value>, fuel: nat)
    requires Wf(c) && Traces.ForwardOnly(c.steps) && fuel >= |c.steps|
    ensures Start(c, args, fuel).outcome == Done(Traces.Sweep(c.steps, 0, Concat(args, Resolve(c.ctx))))
  {
    if |c.steps| > 0 {
      Traces.ForwardRunsInOrder(c.steps, 0, Concat(args, Resolve(c.ctx)), fuel);
      assert TailHooks(c.steps, |c.steps| - 1) == [];
    }
  }

  /** A chain that borrowed another's functions behaves exactly like it:
      same context, same functions in the same order, same start. */
  lemma FlattenedBehavesAlike(a: Co, b: Co, args: seq<Value>, fuel: nat)
    requires Wf(a) && Wf(b) && Fns(a.steps) == Fns(b.steps) && a.ctx == b.ctx
    ensures Start(a, args, fuel) == Start(b, args, fuel)
  {
    WfDeterminedByFns(a, b);
  }
}

=== FILE: co_error.dfy ===
/** Tagging of exceptions thrown by step functions (`isCoError`,
    `buildCoError` and the `catch` around `fn.apply` in `Runner.run`).
    Error messages are strings; rewriting `error.message` in place and
    rethrowing the same object is modelled as returning the new message. */
module CoError {
  import opened Js
  import opened Middleware

  /** The text whose presence marks a message as already tagged. */
  const Marker: string := "Co Exception"

  /** `isCoError`: the message contains the marker anywhere. */
  predicate IsCoError(message: string) {
    Includes(message, Marker)
  }

  /** The name used in a tag: `fn.name`, or when that is empty the first
      ten characters of the function's source text. */
  function FunctionName(fn: Fn): (name: string)
    ensures fn.name != "" ==> name == fn.name
    ensures fn.name == "" ==> StartsWith(fn.source, name)
    ensures fn.name == "" ==> |name| == if |fn.source| < 10 then |fn.source| else 10
  {
    if fn.name != "" then fn.name
    else fn.source[..if |fn.source| < 10 then |fn.source| else 10]
  }

  /** `buildCoError`: the tagged message names the function and keeps the
      original message as its tail. */
  function BuildCoError(fn: Fn, message: string): (tagged: string)
    ensures IsCoError(tagged)
    ensures StartsWith(tagged, "[" + Marker + " " + FunctionName(fn) + "]: ")
    ensures EndsWith(tagged, message)
    ensures |tagged| == |FunctionName(fn)| + |message| + 17
  {
    var tagged := "[" + Marker + " " + FunctionName(fn) + "]: " + message;
    IncludesAfterOne('[', Marker, " " + FunctionName(fn) + "]: " + message);
    assert tagged == ['['] + Marker + (" " + FunctionName(fn) + "]: " + message);
    assert tagged[..|"[" + Marker + " " + FunctionName(fn) + "]: "|]
        == "[" + Marker + " " + FunctionName(fn) + "]: ";
    assert tagged[|tagged| - |message|..] == message;
    tagged
  }

  /** The handler around a step's invocation: an already tagged message is
      rethrown unchanged, any other message is tagged with `fn`. */
  function Rethrow(fn: Fn, message: string): (thrown: string)
    ensures IsCoError(thrown)
    ensures EndsWith(thrown, message)
    ensures IsCoError(message) <==> thrown == message
    ensures !IsCoError(message) ==> StartsWith(thrown, "[" + Marker + " " + FunctionName(fn) + "]: ")
  {
    if IsCoError(message) then message else BuildCoError(fn, message)
  }

  /** A message that passed through one handler passes through any further
      enclosing handler unchanged: nested chains never tag twice. */
  lemma RethrowIdempotent(inner: Fn, outer: Fn, message: string)
    ensures Rethrow(outer, Rethrow(inner, message)) == Rethrow(inner, message)
  {
  }
}

=== FILE: js.dfy ===
/** The small part of the JavaScript runtime the chain engine leans on:
    optional values, opaque argument values, `Array.prototype.slice` and a
    literal-substring test (what a regular expression without special
    characters does). */
module Js {

  /** `null`/`undefined` versus a present value. */
  datatype Option<+T> = None | Some(value: T)

  /** A JavaScript value passed through the chain. The engine never looks
      inside one, except that `concat` spreads an array. */
  datatype Value = Undefined | Obj(ref: nat) | Prim(repr: string) | Arr(elems: seq<Value>)

  /** `list.concat(v)`: an array is spread into its elements, any other
      value is appended as one element. */
  function Concat(list: seq<Value>, v: Value): (r: seq<Value>)
    ensures |r| == |list| + (if v.Arr? then |v.elems| else 1)
    ensures r[..|list|] == list
    ensures v.Arr? ==> r[|list|..] == v.elems
    ensures !v.Arr? ==> r[|list|..] == [v]
  {
    if v.Arr? then list + v.elems else list + [v]
  }

  /** How `slice` turns a possibly negative position into an index into a
      list of length `len`: negative positions count from the end, and the
      result is clamped to `0..len`. */
  function RelIndex(k: int, len: nat): (r: nat)
    ensures r <= len
    ensures 0 <= k <= len ==> r == k
    ensures -(len as int) <= k < 0 ==> r as int == len + k
    ensures k < -(len as int) ==> r == 0
    ensures k > len ==> r == len
  {
    if k < 0 then (if len + k < 0 then 0 else len + k)
    else if k > len then len
    else k
  }

  /** `s.slice(start, end)`: the elements from `start` up to, not
      including, `end`, both read by `RelIndex`; empty when they cross. */
  function Slice<T>(s: seq<T>, start: int, end: int): (r: seq<T>)
    ensures |r| <= |s|
  {
    var a := RelIndex(start, |s|);
    var b := RelIndex(end, |s|);
    if a < b then s[a..b] else []
  }

  /** `s.slice(-n)`: at most the last `n` elements, except that `-0` is
      `0`, so `n == 0` keeps everything. */
  lemma SliceFromEnd<T>(s: seq<T>, n: nat)
    ensures 1 <= n <= |s| ==> Slice(s, -(n as int), |s|) == s[|s| - n..]
    ensures n == 0 || n >= |s| ==> Slice(s, -(n as int), |s|) == s
  {
  }

  predicate StartsWith<T(==)>(s: seq<T>, prefix: seq<T>) {
    |prefix| <= |s| && s[..|prefix|] == prefix
  }

  predicate EndsWith<T(==)>(s: seq<T>, suffix: seq<T>) {
    |suffix| <= |s| && s[|s| - |suffix|..] == suffix
  }

  /** `sub` occurs somewhere in `s`, checked position by position. */
  predicate Includes<T(==)>(s: seq<T>, sub: seq<T>)
    decreases |s|
  {
    StartsWith(s, sub) || (|s| > 0 && Includes(s[1..], sub))
  }

  /** `sub` sits in `s` starting at position `i`. */
  predicate OccursAt<T(==)>(s: seq<T>, sub: seq<T>, i: int) {
    0 <= i <= |s| - |sub| && s[i..i + |sub|] == sub
  }

  /** The position-by-position test agrees with "some window of `s`
      equals `sub`". */
  lemma {:induction false} IncludesIff<T>(s: seq<T>, sub: seq<T>)
    ensures Includes(s, sub) <==> exists i :: OccursAt(s, sub, i)
    decreases |s|
  {
    if StartsWith(s, sub) {
      assert OccursAt(s, sub, 0);
    } else if |s| > 0 {
      IncludesIff(s[1..], sub);
      if Includes(s[1..], sub) {
        var i :| OccursAt(s[1..], sub, i);
        assert s[i + 1..i + 1 + |sub|] == s[1..][i..i + |sub|];
        assert OccursAt(s, sub, i + 1);
      }
      if exists i :: OccursAt(s, sub, i) {
        var i :| OccursAt(s, sub, i);
        assert i != 0;
        assert s[1..][i - 1..i - 1 + |sub|] == s[i..i + |sub|];
        assert OccursAt(s[1..], sub, i - 1);
      }
    }
  }

  /** Anything placed right after a one-element prefix is found. */
  lemma IncludesAfterOne<T>(x: T, sub: seq<T>, rest: seq<T>)
    ensures Includes([x] + sub + rest, sub)
  {
  }
}

=== FILE: middleware.dfy ===
/** A user step function as the engine sees it. JavaScript reflection is
    replaced by plain fields: `name` is `fn.name`, `source` is
    `String(fn)`, `length` is `fn.length` (the declared parameter count).
    The body is abstracted to the one thing the engine reacts to: which
    directive it calls, whether it returns without calling one, or what it
    throws. */
module Middleware {

  /** The four members of the directives object a step receives. */
  datatype Directive = Abort | Back | Resume | Next

  /** What a step's body does when invoked. */
  datatype Action =
    | Return                        // returns without calling a directive
    | Call(directive: Directive)    // calls exactly one directive, synchronously
    | Throw(message: string)        // throws an `Error` with this message

  datatype Fn = Fn(name: string, source: string, length: nat, action: Action)
}

=== FILE: steps.dfy ===
/** `Runner`: one node of a chain and what happens when it runs.

    A chain's nodes are a `seq<Runner>`; a node's `prev` and `next` are the
    positions of its neighbours (`prevSibling`/`nextSibling`), and `Linked`
    says they are the positions just before and after it. The optional
    callbacks are flags saying whether `onError`, `onSuccess`, `onFinish`
    hold a function.

    Running a node is a fuel-bounded function returning the trace of what
    happened. Fuel is spent once per node invocation; an `OutOfFuel`
    outcome means the source would still be recursing (an endless
    `back`/`resume` cycle is possible and is not guarded against). */
module Steps {
  import opened Js
  import opened Middleware
  import CoError

  datatype Runner = Runner(
    fn: Fn,
    prev: Option<nat>,
    next: Option<nat>,
    onError: bool,
    onSuccess: bool,
    onFinish: bool)

  /** The constructor as `Co` calls it: no neighbours and no callbacks. */
  function NewRunner(fn: Fn): (r: Runner)
    ensures r.fn == fn && r.prev.None? && r.next.None?
    ensures !r.onError && !r.onSuccess && !r.onFinish
  {
    Runner(fn, None, None, false, false, false)
  }

  /** `setPrevSibling`: only the backward link changes. */
  function SetPrevSibling(r: Runner, prev: nat): (r': Runner)
    ensures r'.prev == Some(prev)
    ensures r'.(prev := r.prev) == r
  {
    r.(prev := Some(prev))
  }

  /** `setNextSibling`: only the forward link changes. */
  function SetNextSibling(r: Runner, next: nat): (r': Runner)
    ensures r'.next == Some(next)
    ensures r'.(next := r.next) == r
  {
    r.(next := Some(next))
  }

  /** Every node's links name the positions right before and after it. */
  predicate Linked(steps: seq<Runner>) {
    forall i :: 0 <= i < |steps| ==>
      && steps[i].prev == (if i == 0 then None else Some(i - 1))
      && steps[i].next == (if i + 1 < |steps| then Some(i + 1) else None)
  }

  /** One element of a step's argument list: a value passed to `run`, or
      the directives object appended after them. */
  datatype Arg = Val(value: Value) | Directives

  /** `options.concat(directives)`. */
  function WithDirectives(options: seq<Value>): (all: seq<Arg>)
    ensures |all| == |options| + 1 && all[|options|] == Directives
    ensures forall k :: 0 <= k < |options| ==> all[k] == Val(options[k])
  {
    seq(|options|, k requires 0 <= k < |options| => Val(options[k])) + [Directives]
  }

  /** The arguments a node's function receives, given the list `run` was
      called with, the function's declared parameter count and whether the
      node is the last one. */
  function Arguments(options: seq<Value>, length: nat, isTail: bool): (args: seq<Arg>)
    // a middle node gets the last `length` entries, so the directives come last
    ensures !isTail && 1 <= length <= |options| + 1 ==>
      |args| == length && args == WithDirectives(options)[|options| + 1 - length..]
      && args[length - 1] == Directives
    // ... except that 0, or a count beyond the list, keeps the whole list
    ensures !isTail && (length == 0 || length > |options| + 1) ==> args == WithDirectives(options)
    // a one-parameter last node gets only the last entry of `options`, which
    // is the context when the context is not an array
    ensures isTail && length == 1 && |options| > 0 ==> args == [Val(options[|options| - 1])]
    ensures isTail && length == 1 && |options| == 0 ==> args == []
    // any other last node gets everything
    ensures isTail && length != 1 ==> args == WithDirectives(options)
  {
    var all := WithDirectives(options);
    SliceFromEnd(all, length);
    if !isTail then Slice(all, -(length as int), |all|)
    else if length == 1 then Slice(all, -2, -1)
    else all
  }

  /** The arguments node `i` receives from `options`. */
  function ArgumentsAt(steps: seq<Runner>, i: nat, options: seq<Value>): seq<Arg>
    requires i < |steps|
  {
    Arguments(options, steps[i].fn.length, steps[i].next.None?)
  }

  /** A node's function receives the directives object exactly when the
      node is not a last node declaring one parameter, whatever `options`
      it is run with. */
  lemma ReceivesDirectives(steps: seq<Runner>, i: nat, options: seq<Value>)
    requires i < |steps|
    ensures Directives in ArgumentsAt(steps, i, options)
        <==> !(steps[i].next.None? && steps[i].fn.length == 1)
  {
    var args := ArgumentsAt(steps, i, options);
    var all := WithDirectives(options);
    var len := steps[i].fn.length;
    if steps[i].next.None? && len == 1 {
      assert |options| > 0 ==> args == [Val(options[|options| - 1])];
    } else if steps[i].next.Some? && 1 <= len <= |options| + 1 {
      assert args[len - 1] == Directives;
    } else {
      assert args == all && all[|options|] == Directives;
    }
  }

  /** Only a node whose function receives the directives object can call
      one: a one-parameter last node never calls a directive. These are the
      node lists the source can produce. */
  predicate Realisable(steps: seq<Runner>) {
    forall i :: 0 <= i < |steps| ==>
      steps[i].fn.action.Call? ==> !(steps[i].next.None? && steps[i].fn.length == 1)
  }

  /** `Realisable` says, for any `options`, that every node calling a
      directive has the directives object among its arguments. */
  lemma RealisableIff(steps: seq<Runner>, options: seq<Value>)
    ensures Realisable(steps) <==>
      forall i :: 0 <= i < |steps| && steps[i].fn.action.Call? ==> Directives in ArgumentsAt(steps, i, options)
  {
    forall i | 0 <= i < |steps| {
      ReceivesDirectives(steps, i, options);
    }
  }

  /** What an execution trace records. */
  datatype Event =
    | Ran(index: nat, options: seq<Value>) // node `index` ran with `options`, so its function
                                          // received `ArgumentsAt(steps, index, options)`
    | ErrorHook(at: nat)                  // node `at` called its `onError`
    | SuccessHook(at: nat)                // node `at` called its `onSuccess`
    | FinishHook(at: nat)                 // node `at` called its `onFinish`

  datatype Outcome =
    | Done(trace: seq<Event>)                   // `run` returned normally
    | Threw(trace: seq<Event>, message: string) // `run` threw an error with this message
    | OutOfFuel(trace: seq<Event>)              // still running when fuel ran out

  /** The callbacks `abort` calls at node `i`. */
  function AbortHooks(steps: seq<Runner>, i: nat): seq<Event>
    requires i < |steps|
  {
    (if steps[i].onError then [ErrorHook(i)] else [])
    + (if steps[i].onFinish then [FinishHook(i)] else [])
  }

  /** The callbacks `next` calls at a node without successor. */
  function TailHooks(steps: seq<Runner>, i: nat): seq<Event>
    requires i < |steps|
  {
    (if steps[i].onSuccess then [SuccessHook(i)] else [])
    + (if steps[i].onFinish then [FinishHook(i)] else [])
  }

  /** `ran` happened before `o`. The error handler of the node that
      invoked the directive sees anything `o` threw. */
  function After(ran: Event, fn: Fn, o: Outcome): Outcome {
    match o
    case Done(t) => Done([ran] + t)
    case OutOfFuel(t) => OutOfFuel([ran] + t)
    case Threw(t, m) => Threw([ran] + t, CoError.Rethrow(fn, m))
  }

  /** `Runner.run(options)` at node `i`. */
  function Run(steps: seq<Runner>, i: nat, options: seq<Value>, fuel: nat): Outcome
    requires Linked(steps) && i < |steps|
    decreases fuel, 0, 0
  {
    if fuel == 0 then OutOfFuel([])
    else
      var fn := steps[i].fn;
      var ran := Ran(i, options);
      match fn.action
      case Return => Done([ran])
      case Throw(m) => Threw([ran], CoError.Rethrow(fn, m))
      case Call(d) => After(ran, fn, Dispatch(steps, i, d, options, fuel - 1))
  }

  /** `Runner.upstream(options)` at node `i`: follow `prev` links to the
      first node and run it. */
  function Upstream(steps: seq<Runner>, i: nat, options: seq<Value>, fuel: nat): Outcome
    requires Linked(steps) && i < |steps|
    decreases fuel, 1, i
  {
    match steps[i].prev
    case Some(p) => Upstream(steps, p, options, fuel)
    case None => Run(steps, i, options, fuel)
  }

  /** The body of directive `d` of the directives object node `i` built;
      every directive reuses the `options` node `i` was run with. */
  function Dispatch(steps: seq<Runner>, i: nat, d: Directive, options: seq<Value>, fuel: nat): Outcome
    requires Linked(steps) && i < |steps|
    decreases fuel, 2, 0
  {
    match d
    case Abort => Done(AbortHooks(steps, i))
    case Back =>
      (match steps[i].prev
       case Some(p) => Run(steps, p, options, fuel)
       case None => Done([]))
    case Resume =>
      (match steps[i].prev
       case Some(p) => Upstream(steps, p, options, fuel)
       case None => Done([]))
    case Next =>
      (match steps[i].next
       case Some(n) => Run(steps, n, options, fuel)
       case None => Done(TailHooks(steps, i)))
  }

  // ---------------------------------------------------------------------
  // Where each directive goes

  /** `upstream` from any node runs the first node, whatever node it
      started from. */
  lemma {:induction false} UpstreamRunsHead(steps: seq<Runner>, i: nat, options: seq<Value>, fuel: nat)
    requires Linked(steps) && i < |steps|
    ensures Upstream(steps, i, options, fuel) == Run(steps, 0, options, fuel)
    decreases i
  {
    if i > 0 {
      UpstreamRunsHead(steps, i - 1, options, fuel);
    }
  }

  /** The node each directive hands control to. `back` and `resume` at the
      first node and `next` at the last run nothing; `abort` runs nothing
      but its callbacks. */
  lemma DispatchTarget(steps: seq<Runner>, i: nat, options: seq<Value>, fuel: nat)
    requires Linked(steps) && i < |steps|
    ensures Dispatch(steps, i, Abort, options, fuel) == Done(AbortHooks(steps, i))
    ensures i > 0 ==> Dispatch(steps, i, Back, options, fuel) == Run(steps, i - 1, options, fuel)
    ensures i == 0 ==> Dispatch(steps, i, Back, options, fuel) == Done([])
    ensures i > 0 ==> Dispatch(steps, i, Resume, options, fuel) == Run(steps, 0, options, fuel)
    ensures i == 0 ==> Dispatch(steps, i, Resume, options, fuel) == Done([])
    ensures i + 1 < |steps| ==> Dispatch(steps, i, Next, options, fuel) == Run(steps, i + 1, options, fuel)
    ensures i + 1 == |steps| ==> Dispatch(steps, i, Next, options, fuel) == Done(TailHooks(steps, i))
  {
    if i > 0 {
      UpstreamRunsHead(steps, i - 1, options, fuel);
    }
  }

  /** After `abort` no node runs: the trace is the aborting node's own
      invocation followed by its callbacks. */
  lemma AbortStops(steps: seq<Runner>, i: nat, options: seq<Value>, fuel: nat)
    requires Linked(steps) && i < |steps| && fuel > 0
    requires steps[i].fn.action == Call(Abort)
    ensures Run(steps, i, options, fuel) == Done([Ran(i, options)] + AbortHooks(steps, i))
    ensures forall k :: 0 <= k < |Run(steps, i, options, fuel).trace| && Run(steps, i, options, fuel).trace[k].Ran? ==>
      Run(steps, i, options, fuel).trace[k].index == i
  {
  }
}

=== FILE: traces.dfy ===
/** Properties of whole executions of a linked node list: what every
    invoked node receives, where a thrown error comes from, the order of a
    run in which every node calls `next`, and that fuel only cuts runs
    short. */
module Traces {
  import opened Js
  import opened Middleware
  import CoError
  import opened Steps

  // ---------------------------------------------------------------------
  // Every node invoked in one run receives the same `options`

  /** Every invocation in `t` is of an existing node, with the arguments
      that node selects from `options`; every callback is of an existing
      node. */
  predicate SameOptions(steps: seq<Runner>, options: seq<Value>, t: seq<Event>) {
    forall k :: 0 <= k < |t| ==>
      match t[k]
      case Ran(j, o) => j < |steps| && o == options
      case ErrorHook(j) => j < |steps|
      case SuccessHook(j) => j < |steps|
      case FinishHook(j) => j < |steps|
  }

  lemma SameOptionsConcat(steps: seq<Runner>, options: seq<Value>, a: seq<Event>, b: seq<Event>)
    requires SameOptions(steps, options, a) && SameOptions(steps, options, b)
    ensures SameOptions(steps, options, a + b)
  {
  }

  lemma {:induction false} RunSameOptions(steps: seq<Runner>, i: nat, options: seq<Value>, fuel: nat)
    requires Linked(steps) && i < |steps|
    ensures SameOptions(steps, options, Run(steps, i, options, fuel).trace)
    decreases fuel, 0, 0
  {
    if fuel > 0 {
      var ran := Ran(i, options);
      assert SameOptions(steps, options, [ran]);
      if steps[i].fn.action.Call? {
        var d := steps[i].fn.action.directive;
        DispatchSameOptions(steps, i, d, options, fuel - 1);
        SameOptionsConcat(steps, options, [ran], Dispatch(steps, i, d, options, fuel - 1).trace);
      }
    }
  }

  lemma {:induction false} UpstreamSameOptions(steps: seq<Runner>, i: nat, options: seq<Value>, fuel: nat)
    requires Linked(steps) && i < |steps|
    ensures SameOptions(steps, options, Upstream(steps, i, options, fuel).trace)
    decreases fuel, 1, i
  {
    if i > 0 {
      UpstreamSameOptions(steps, i - 1, options, fuel);
    } else {
      RunSameOptions(steps, i, options, fuel);
    }
  }

  lemma {:induction false} DispatchSameOptions(steps: seq<Runner>, i: nat, d: Directive, options: seq<Value>, fuel: nat)
    requires Linked(steps) && i < |steps|
    ensures SameOptions(steps, options, Dispatch(steps, i, d, options, fuel).trace)
    decreases fuel, 2, 0
  {
    var o := Dispatch(steps, i, d, options, fuel);
    if d == Back && i > 0 {
      assert o == Run(steps, i - 1, options, fuel);
      RunSameOptions(steps, i - 1, options, fuel);
    } else if d == Resume && i > 0 {
      assert o == Upstream(steps, i - 1, options, fuel);
      UpstreamSameOptions(steps, i - 1, options, fuel);
    } else if d == Next && i + 1 < |steps| {
      assert o == Run(steps, i + 1, options, fuel);
      RunSameOptions(steps, i + 1, options, fuel);
    }
  }

  // ---------------------------------------------------------------------
  // A thrown error names the node that threw it, once

  /** `message` is what node `j` throws after its own handler tagged it. */
  predicate ThrownBy(steps: seq<Runner>, j: nat, message: string) {
    && j < |steps|
    && steps[j].fn.action.Throw?
    && message == CoError.Rethrow(steps[j].fn, steps[j].fn.action.message)
  }

  /** An outcome that is a throw: the last node invoked threw it, and the
      message reaching the caller is exactly that node's tagged message —
      the handlers of the nodes that invoked it on the way did not tag it
      again (so the message carries the marker once tagged, by
      `CoError.Rethrow`). */
  predicate WellTagged(steps: seq<Runner>, o: Outcome) {
    o.Threw? ==>
      && |o.trace| > 0
      && o.trace[|o.trace| - 1].Ran?
      && ThrownBy(steps, o.trace[|o.trace| - 1].index, o.message)
  }

  lemma {:induction false} RunWellTagged(steps: seq<Runner>, i: nat, options: seq<Value>, fuel: nat)
    requires Linked(steps) && i < |steps|
    ensures WellTagged(steps, Run(steps, i, options, fuel))
    decreases fuel, 0, 0
  {
    if fuel > 0 && steps[i].fn.action.Call? {
      var d := steps[i].fn.action.directive;
      var inner := Dispatch(steps, i, d, options, fuel - 1);
      DispatchWellTagged(steps, i, d, options, fuel - 1);
      if inner.Threw? {
        var ran := Ran(i, options);
        assert ([ran] + inner.trace)[|inner.trace|] == inner.trace[|inner.trace| - 1];
      }
    }
  }

  lemma {:induction false} UpstreamWellTagged(steps: seq<Runner>, i: nat, options: seq<Value>, fuel: nat)
    requires Linked(steps) && i < |steps|
    ensures WellTagged(steps, Upstream(steps, i, options, fuel))
    decreases fuel, 1, i
  {
    if i > 0 {
      UpstreamWellTagged(steps, i - 1, options, fuel);
    } else {
      RunWellTagged(steps, i, options, fuel);
    }
  }

  lemma {:induction false} DispatchWellTagged(steps: seq<Runner>, i: nat, d: Directive, options: seq<Value>, fuel: nat)
    requires Linked(steps) && i < |steps|
    ensures WellTagged(steps, Dispatch(steps, i, d, options, fuel))
    decreases fuel, 2, 0
  {
    var o := Dispatch(steps, i, d, options, fuel);
    if d == Back && i > 0 {
      assert o == Run(steps, i - 1, options, fuel);
      RunWellTagged(steps, i - 1, options, fuel);
    } else if d == Resume && i > 0 {
      assert o == Upstream(steps, i - 1, options, fuel);
      UpstreamWellTagged(steps, i - 1, options, fuel);
    } else if d == Next && i + 1 < |steps| {
      assert o == Run(steps, i + 1, options, fuel);
      RunWellTagged(steps, i + 1, options, fuel);
    } else {
      assert o.Done?;
    }
  }

  // ---------------------------------------------------------------------
  // A chain of `next` calls runs every node once, in order

  /** Every node but the last calls `next`; the last one calls `next` or
      returns without calling a directive (as a one-parameter last node,
      which never receives the directives object, must). */
  predicate ForwardOnly(steps: seq<Runner>) {
    && (forall j :: 0 <= j < |steps| - 1 ==> steps[j].fn.action == Call(Next))
    && (|steps| > 0 ==> steps[|steps| - 1].fn.action == Call(Next) || steps[|steps| - 1].fn.action == Return)
  }

  /** The callbacks a forward-only run ends with: the last node's success
      and finish callbacks when it calls `next`, nothing when it returns. */
  function FinalHooks(steps: seq<Runner>): seq<Event>
    requires |steps| > 0
  {
    if steps[|steps| - 1].fn.action == Call(Next) then TailHooks(steps, |steps| - 1) else []
  }

  /** Invocations of nodes `i`, `i + 1`, ..., last, each with the
      arguments it selects from `options`. */
  function Sweep(steps: seq<Runner>, i: nat, options: seq<Value>): seq<Event>
    decreases |steps| - i
  {
    if i < |steps| then [Ran(i, options)] + Sweep(steps, i + 1, options)
    else []
  }

  /** Node `i + k` is the `k`-th invocation of a sweep from `i`. */
  lemma {:induction false} SweepOrder(steps: seq<Runner>, i: nat, options: seq<Value>)
    requires i <= |steps|
    ensures |Sweep(steps, i, options)| == |steps| - i
    ensures forall k :: 0 <= k < |steps| - i ==>
      Sweep(steps, i, options)[k] == Ran(i + k, options)
    decreases |steps| - i
  {
    if i < |steps| {
      SweepOrder(steps, i + 1, options);
    }
  }

  /** A node of a forward-only list that has a successor: its run is its own
      invocation followed by the successor's run. */
  lemma NextStep(steps: seq<Runner>, i: nat, options: seq<Value>, fuel: nat)
    requires Linked(steps) && i + 1 < |steps| && ForwardOnly(steps) && fuel > 0
    ensures Run(steps, i, options, fuel) == After(Ran(i, options), steps[i].fn, Run(steps, i + 1, options, fuel - 1))
  {
    assert steps[i].fn.action == Call(Next);
    assert Dispatch(steps, i, Next, options, fuel - 1) == Run(steps, i + 1, options, fuel - 1);
  }

  /** The last node of a forward-only list: its own invocation, then its
      final callbacks. */
  lemma LastStep(steps: seq<Runner>, options: seq<Value>, fuel: nat)
    requires Linked(steps) && |steps| > 0 && ForwardOnly(steps) && fuel > 0
    ensures Run(steps, |steps| - 1, options, fuel) == Done([Ran(|steps| - 1, options)] + FinalHooks(steps))
  {
    var i := |steps| - 1;
    if steps[i].fn.action == Call(Next) {
      assert Dispatch(steps, i, Next, options, fuel - 1) == Done(TailHooks(steps, i));
    }
  }

  /** The trace of a forward-only run from node `i`, built the way the run
      unfolds: `i`'s invocation, then the rest of the run. */
  function ForwardTrace(steps: seq<Runner>, i: nat, options: seq<Value>): seq<Event>
    requires i < |steps|
    decreases |steps| - i
  {
    [Ran(i, options)] + (if i + 1 < |steps| then ForwardTrace(steps, i + 1, options) else FinalHooks(steps))
  }

  /** That trace is the sweep from `i` followed by the final callbacks. */
  lemma {:induction false} ForwardTraceIsSweep(steps: seq<Runner>, i: nat, options: seq<Value>)
    requires i < |steps|
    ensures ForwardTrace(steps, i, options) == Sweep(steps, i, options) + FinalHooks(steps)
    decreases |steps| - i
  {
    var rest := Sweep(steps, i + 1, options);
    assert Sweep(steps, i, options) == [Ran(i, options)] + rest;
    if i + 1 < |steps| {
      ForwardTraceIsSweep(steps, i + 1, options);
      assert [Ran(i, options)] + (rest + FinalHooks(steps)) == ([Ran(i, options)] + rest) + FinalHooks(steps);
    } else {
      assert rest == [];
    }
  }

  /** A forward-only run from `i` with enough fuel produces exactly that
      trace. */
  lemma {:induction false} ForwardRuns(steps: seq<Runner>, i: nat, options: seq<Value>, fuel: nat)
    requires Linked(steps) && i < |steps| && ForwardOnly(steps)
    requires fuel >= |steps| - i
    ensures Run(steps, i, options, fuel) == Done(ForwardTrace(steps, i, options))
    decreases |steps| - i
  {
    if i + 1 < |steps| {
      NextStep(steps, i, options, fuel);
      ForwardRuns(steps, i + 1, options, fuel - 1);
    } else {
      LastStep(steps, options, fuel);
    }
  }

  /** When every node calls `next` (the last may instead return), running
      node `i` with enough fuel invokes `i`, `i + 1`, ..., the last node in
      that order and then, if the last node called `next`, its success and
      finish callbacks. */
  lemma ForwardRunsInOrder(steps: seq<Runner>, i: nat, options: seq<Value>, fuel: nat)
    requires Linked(steps) && i < |steps| && ForwardOnly(steps)
    requires fuel >= |steps| - i
    ensures Run(steps, i, options, fuel) == Done(Sweep(steps, i, options) + FinalHooks(steps))
  {
    ForwardRuns(steps, i, options, fuel);
    ForwardTraceIsSweep(steps, i, options);
  }

  // ---------------------------------------------------------------------
  // Fuel only cuts a run short

  lemma {:induction false} RunFuelMonotone(steps: seq<Runner>, i: nat, options: seq<Value>, fuel: nat, more: nat)
    requires Linked(steps) && i < |steps| && fuel <= more
    requires !Run(steps, i, options, fuel).OutOfFuel?
    ensures Run(steps, i, options, more) == Run(steps, i, options, fuel)
    decreases fuel, 0, 0
  {
    if steps[i].fn.action.Call? {
      DispatchFuelMonotone(steps, i, steps[i].fn.action.directive, options, fuel - 1, more - 1);
    }
  }

  lemma {:induction false} UpstreamFuelMonotone(steps: seq<Runner>, i: nat, options: seq<Value>, fuel: nat, more: nat)
    requires Linked(steps) && i < |steps| && fuel <= more
    requires !Upstream(steps, i, options, fuel).OutOfFuel?
    ensures Upstream(steps, i, options, more) == Upstream(steps, i, options, fuel)
    decreases fuel, 1, i
  {
    if i > 0 {
      UpstreamFuelMonotone(steps, i - 1, options, fuel, more);
    } else {
      RunFuelMonotone(steps, i, options, fuel, more);
    }
  }

  lemma {:induction false} DispatchFuelMonotone(steps: seq<Runner>, i: nat, d: Directive, options: seq<Value>, fuel: nat, more: nat)
    requires Linked(steps) && i < |steps| && fuel <= more
    requires !Dispatch(steps, i, d, options, fuel).OutOfFuel?
    ensures Dispatch(steps, i, d, options, more) == Dispatch(steps, i, d, options, fuel)
    decreases fuel, 2, 0
  {
    if d == Back && i > 0 {
      assert Dispatch(steps, i, d, options, fuel) == Run(steps, i - 1, options, fuel);
      RunFuelMonotone(steps, i - 1, options, fuel, more);
      assert Dispatch(steps, i, d, options, more) == Run(steps, i - 1, options, more);
    } else if d == Resume && i > 0 {
      assert Dispatch(steps, i, d, options, fuel) == Upstream(steps, i - 1, options, fuel);
      UpstreamFuelMonotone(steps, i - 1, options, fuel, more);
      assert Dispatch(steps, i, d, options, more) == Upstream(steps, i - 1, options, more);
    } else if d == Next && i + 1 < |steps| {
      assert Dispatch(steps, i, d, options, fuel) == Run(steps, i + 1, options, fuel);
      RunFuelMonotone(steps, i + 1, options, fuel, more);
      assert Dispatch(steps, i, d, options, more) == Run(steps, i + 1, options, more);
    }
  }

  // ---------------------------------------------------------------------
  // `back` is not guarded against cycles

  /** Neighbours `i` and `i + 1`, the first calling `next` and the second
      calling `back`, bounce between each other forever: no amount of fuel
      finishes a run started at either of them. */
  lemma {:induction false} BackNextCycleNeverFinishes(steps: seq<Runner>, i: nat, options: seq<Value>, fuel: nat)
    requires Linked(steps) && i + 1 < |steps|
    requires steps[i].fn.action == Call(Next) && steps[i + 1].fn.action == Call(Back)
    ensures Run(steps, i, options, fuel).OutOfFuel?
    ensures Run(steps, i + 1, options, fuel).OutOfFuel?
    decreases fuel
  {
    if fuel >= 1 {
      BackNextCycleNeverFinishes(steps, i, options, fuel - 1);
      assert Dispatch(steps, i + 1, Back, options, fuel - 1) == Run(steps, i, options, fuel - 1);
      assert Dispatch(steps, i, Next, options, fuel - 1) == Run(steps, i + 1, options, fuel - 1);
    }
  }
}
